=== FILE: README.md ===
# Block writer of the c7a data subsystem, modelled in Dafny

`BlockWriterBase<BlockSize>` (c7a/data/block_writer.hpp) is the write side of
the c7a data layer. The writer holds a fixed-capacity block and a write
cursor. It counts the items that start in the current block and records where
the first of them starts. It splits raw appends across block boundaries and
hands every finished block to a `BlockSink` with its valid range and item
metadata, then starts a fresh block. On Close it hands over the last block,
unless nothing was written to it and no item started in it, and signals
end-of-stream to the sink.

The project has four modules:

- `Blocks` (blocks.dfy) holds the values:
  - bytes, virtual blocks, and the `Delivery` records a sink receives;
  - the byte stream the deliveries carry (`Payload`) and their item count (`OwnItems`);
  - the well-formedness of a delivered block;
  - the little-endian layout of a fixed-width value;
  - the arithmetic of how an append is segmented (`AppendFlushes`, `AppendCursor`);
  - the effect of one append as a relation between writer states (`Appended`);
  - where an item is recorded (`ItemLands`).
- `Sink` (block_sink.dfy) is a recording sink. It keeps the log of deliveries and the number of end-of-stream signals. The real sinks (a file, a network channel) are not part of this model.
- `Writer` (block_writer.dfy) is the writer itself, as a class:
  - its state is an `array<byte>` block, a cursor offset in place of `current_ - block_->begin()`, `nitems`, `firstOffset`, `closed`, and a possibly null sink;
  - ghost state records the deliveries the writer made and the number of items it marked;
  - `Valid()` is the invariant: the cursor and first-item offset are in bounds, the sink's log is what it held before plus this writer's deliveries, every emitted block is well-formed, and the item counts of the delivered blocks plus the current block's count equal the items marked.
- `Scenarios` (scenarios.dfy) holds whole writing sessions against a fresh recording sink.

Every writing operation states what it hands to the sink as a round trip. The
valid bytes of the blocks it delivered, followed by the bytes now in the
current block, equal the bytes that were in the current block before,
followed by the operation's input.

## Model

| member | source | states |
|---|---|---|
| Writer.BlockWriter.constructor | c7a/data/block_writer.hpp:54-57 | attaches the given (possibly null) sink and starts with a fresh block, cursor 0, no items, first offset 0, and nothing delivered |
| Writer.BlockWriter.Destroy | c7a/data/block_writer.hpp:70-73 | closes the writer if it still holds a block: the last block is delivered only when non-empty, and the sink is closed exactly once; a writer already closed is unchanged |
| Writer.BlockWriter.Close | c7a/data/block_writer.hpp:76-83 | the first call delivers the current block only when a byte was written or an item started in it (and releases it exactly then), closes the sink once, and leaves every marked item counted by a delivered block; later calls change neither the writer nor the sink |
| Writer.BlockWriter.Flush | c7a/data/block_writer.hpp:89-92 | delivers exactly one block, even an empty one, as (offset 0, length = cursor, first offset, item count), with the bytes written so far as its range; then starts a fresh block with cursor 0 and no items |
| Writer.BlockWriter.AppendBlocks | c7a/data/block_writer.hpp:96-103 | delivers the current block only if it is non-empty, then forwards the virtual blocks unchanged and in order, then starts a fresh block; the stream grows by the old pending bytes followed by the virtual blocks' bytes |
| Writer.BlockWriter.FlushAndForward | c7a/data/block_writer.hpp:97-100 | the deliveries of AppendBlocks before the fresh block is allocated, with the same stream statement |
| Writer.BlockWriter.ForwardBlocks | c7a/data/block_writer.hpp:99-100 | the sink receives the virtual blocks one by one, in order, and nothing else |
| Writer.BlockWriter.MarkItem | c7a/data/block_writer.hpp:109-119 | a full block is delivered first (and only then); the first offset is set to the cursor only when no item had started in the block; the item count grows by one; afterwards first offset <= cursor < block size |
| Writer.BlockWriter.AppendItem | c7a/data/block_writer.hpp:122-132 | one more item is marked; a full block is delivered first with its old metadata; the block the item starts in counts it and, when it is that block's first item, reports its start offset; the stream grows by the item's bytes; the cursor and number of blocks are the closed forms of an append from the marked position; every block it delivers is a full emitted block, and those after the item's own block carry no items; the first block delivered, if any, is the old block and writing continues in a fresh one |
| Writer.BlockWriter.AppendItemBytes | c7a/data/block_writer.hpp:126-130 | the optional 8-byte type hash followed by the serialized item act as one append of `ItemBytes` (closed-form blocks and cursor, full blocks with the old metadata only on the first, the stream grows by the item's bytes); the first block delivered, if any, is the old block and writing continues in a fresh one |
| Writer.BlockWriter.Append | c7a/data/block_writer.hpp:140-162 | the number of full blocks delivered and the final cursor are the closed forms; every delivered block is full, the first carries the old item metadata and the later ones none; the stream grows by exactly the input bytes; the block is replaced exactly when something was delivered, and the delivered one is the old block |
| Writer.BlockWriter.SpillOverrun | c7a/data/block_writer.hpp:145-155 | the loop leaves the rest of the input fitting in the current block, having delivered full blocks that carry the old pending bytes and the input consumed so far |
| Writer.BlockWriter.Turn | c7a/data/block_writer.hpp:146-154 | one loop turn fills the block to its end and flushes it as a full block, keeping the loop's progress relation |
| Writer.BlockWriter.Spill | c7a/data/block_writer.hpp:147-154 | fills the rest of the block with the chunk and delivers it: offset 0, length = block size, the old item metadata, and the old pending bytes followed by the chunk as its range |
| Writer.BlockWriter.Fill | c7a/data/block_writer.hpp:157-159 | copies the bytes at the cursor and advances the cursor past them; the block's prefix grows by exactly those bytes |
| Writer.BlockWriter.PutByte | c7a/data/block_writer.hpp:165-176 | writes exactly one byte; flushes first only when the block is full, and then the byte lands at offset 0 of a fresh block; the cursor stays within 1..block size |
| Writer.BlockWriter.AppendString | c7a/data/block_writer.hpp:180-182 | appends the string's bytes, without a terminator, with the effect of Append: closed-form blocks and cursor, full blocks with the old metadata only on the first, the stream grows by the string's bytes, the block is kept unless something was delivered, and then the first delivered block is the old one and writing continues in a fresh one |
| Writer.BlockWriter.Put | c7a/data/block_writer.hpp:186-192 | appends the value's `width` bytes as they lie in memory, with the effect of Append: closed-form blocks and cursor, full blocks with the old metadata only on the first, the stream grows by those bytes, and which block is kept, delivered or fresh |
| Writer.BlockWriter.IsValid | c7a/data/block_writer.hpp:86 | true exactly when a sink is attached; a writer without one has delivered nothing |
| Writer.BlockWriter.AllocateBlock | c7a/data/block_writer.hpp:198-204 | a fresh block with cursor 0, no items and first offset 0 |
| Writer.BlockWriter.FlushBlock | c7a/data/block_writer.hpp:207-210 | hands the current block to the sink as (offset 0, length = cursor, first offset, item count); its range is the bytes written; every marked item is then counted by a delivered block |
| Writer.BlockWriter.MaybeFlushBlock | c7a/data/block_writer.hpp:213-220 | delivers the block (and releases it) exactly when a byte was written or an item started in it; otherwise nothing is delivered and the block is kept |
| Sink.BlockSink.AppendBlock | c7a/data/block_writer.hpp:208-209 | the sink's log grows by exactly the delivered block, with its range and metadata |
| Sink.BlockSink.AppendVirtualBlock | c7a/data/block_writer.hpp:100 | the sink's log grows by exactly the forwarded virtual block, and its close count is unchanged |
| Sink.BlockSink.Close | c7a/data/block_writer.hpp:80-81 | the end-of-stream signal: the close count grows by one and the log is unchanged |
| Blocks.Range | c7a/data/block_writer.hpp:208-209 | the valid range of a delivered block has the delivered length |
| Blocks.LeftoverPayload | c7a/data/block_writer.hpp:213-219 | what releasing a partial block delivers carries exactly the bytes written into it |
| Blocks.ForwardsPayload | c7a/data/block_writer.hpp:99-100 | forwarding virtual blocks adds exactly their bytes to the stream, no items of the writer's own, and nothing ill-formed |
| Blocks.ForwardedAfter | c7a/data/block_writer.hpp:96-100 | deliveries carrying the pending bytes, followed by the forwarded blocks, carry the pending bytes and then the virtual blocks' bytes |
| Blocks.PayloadConcat | c7a/data/block_writer.hpp:207-210 | the stream of two runs of deliveries is the concatenation of their streams |
| Blocks.OwnItemsConcat | c7a/data/block_writer.hpp:113-116 | the item counts of two runs of deliveries add up |
| Blocks.AllWellFormedConcat | c7a/data/block_writer.hpp:207-210 | a log is well-formed exactly when both of its parts are |
| Blocks.LittleEndian | c7a/data/block_writer.hpp:186-191 | a value is written as `width` bytes, least significant first |
| Blocks.LittleEndianRoundTrip | c7a/data/block_writer.hpp:186-191 | reading back the bytes Put writes gives the value |
| Blocks.LittleEndianInjective | c7a/data/block_writer.hpp:186-191 | two different values of one width never write the same bytes |
| Blocks.ItemBytes | c7a/data/block_writer.hpp:126-130 | an item is written as the 8-byte type hash under self-verification, then the serialized bytes; the hash reads back from the first 8 bytes and the serialized item is the tail |
| Blocks.AppendFlushesStep | c7a/data/block_writer.hpp:145-155 | one loop turn accounts for one flush and continues at offset 0 with the rest of the bytes |
| Blocks.SegmentationUnique | c7a/data/block_writer.hpp:145-159 | any split of an append into full blocks and a non-empty rest is the closed-form one |
| Blocks.AppendCursorBounds | c7a/data/block_writer.hpp:145-159 | the cursor after an append stays within 0..block size, is never 0 after a flush, and is cursor + size when the bytes fit, including exactly filling the block (strict `>` test) |
| Blocks.AppendFlushesSplit | c7a/data/block_writer.hpp:140-162 | two appends of n and m bytes flush as many blocks and end at the same cursor as one append of n + m bytes |
| Blocks.TurnsClosedForm | c7a/data/block_writer.hpp:145-155 | the loop's turn-by-turn flush count and final cursor equal the closed forms |
| Blocks.AppendProgressStep | c7a/data/block_writer.hpp:145-155 | one turn extends the delivered run by one full block carrying the pending bytes and the next chunk of input |
| Blocks.AppendProgressDone | c7a/data/block_writer.hpp:157-159 | copying the rest after the loop completes the append: the closed-form block count and cursor, and the whole input in the stream |
| Blocks.StreamCompose | c7a/data/block_writer.hpp:140-162 | two writing operations in a row carry the concatenation of their inputs |
| Blocks.StringBytes | c7a/data/block_writer.hpp:180-182 | a string is appended as one byte per character |
| Blocks.StringBytesRoundTrip | c7a/data/block_writer.hpp:180-182 | the appended bytes spell the string again, and bytes survive the trip through a string |
| Blocks.AppendedNothing | c7a/data/block_writer.hpp:126-129 | with self-verification off, the absent hash prefix changes nothing |
| Blocks.AppendedTwice | c7a/data/block_writer.hpp:126-130 | the hash append followed by the item's append has the effect of one append of both, full blocks and metadata placement included |
| Blocks.FullSegmentConcat | c7a/data/block_writer.hpp:145-155 | two runs of full blocks in a row form one run when the second carries the metadata the first left behind |
| Blocks.ItemRecorded | c7a/data/block_writer.hpp:109-132 | marking an item and appending its bytes records it in the block it starts in, with the right first offset, and extends the stream by its bytes |
| Scenarios.WriteAll | c7a/data/block_writer.hpp:140-162 | however bytes are split into Append calls and whatever the block size, the sink receives well-formed blocks whose valid ranges, in order, are all the bytes, and one end-of-stream signal |
| Scenarios.WriteItems | c7a/data/block_writer.hpp:122-132 | writing items and closing delivers their bytes in order, and the item counts of the delivered blocks sum to the number of items |
| Scenarios.SelfVerifiedItem | c7a/data/block_writer.hpp:126-130 | under self-verification a reader finds the type hash in the first 8 bytes of the stream and the serialized item after it |
| Scenarios.TwoFullItems | c7a/data/block_writer.hpp:109-119 | block size 4, two 4-byte items, Close: two blocks, each of length 4 with one item at offset 0 |
| Scenarios.FullBlockItem | c7a/data/block_writer.hpp:109-132 | an item one block long, written at an empty or full block, fills the block as its only item at offset 0; the item's own bytes cause no flush, and at a full block MarkItem first delivers the old block with its old metadata |
| Scenarios.ExactFill | c7a/data/block_writer.hpp:145-176 | 4 bytes into an empty block of size 4 deliver nothing; the next byte delivers the full block with those 4 bytes |
| Scenarios.FillExactly | c7a/data/block_writer.hpp:145-159 | bytes that exactly fill the rest of the block stay in it, with nothing delivered |
| Scenarios.FlushThenAppend | c7a/data/block_writer.hpp:198-204 | a block handed over by Flush keeps its delivered contents while the writer appends into the fresh block |
| Scenarios.CloseTwice | c7a/data/block_writer.hpp:76-83 | a second Close and the destructor afterwards deliver nothing and do not close the sink again |
| Scenarios.DetachedWriter | c7a/data/block_writer.hpp:86 | a writer constructed without a sink reports itself as not valid and holds the bytes appended to it while they fit in one block |
| Scenarios.EmptySession | c7a/data/block_writer.hpp:76-83 | Close right after construction delivers no block and closes the sink once |
| Scenarios.FlushEmptyBlock | c7a/data/block_writer.hpp:89-92 | Flush delivers an empty block, and the following Close delivers nothing more |
| Scenarios.DestroyDelivers | c7a/data/block_writer.hpp:70-73 | destroying a writer with the 2 pending bytes [7, 8] delivers one block of length 2 whose valid range is [7, 8], and closes the sink once |
| Scenarios.SessionClose | c7a/data/block_writer.hpp:76-83 | closing a session leaves the sink holding the whole stream, well-formed blocks counting every marked item, and one end-of-stream signal |

## Left out

- `Serialization<BlockWriterBase, T>::Serialize` (line 130): serialization.hpp is not part of this model. An item is given as its serialized bytes.
- `typeid(T).hash_code()` (line 128) is a runtime-library hash. It is a parameter `typeHash` (below 2^64), and the process-wide `self_verify` flag is a parameter `selfVerify`.
- `Put` (line 187) copies any plain-old-data value. The model puts an unsigned integer of `width` bytes as it lies on a little-endian host. Signed, floating-point and composite values are not modelled. The `static_assert` on POD types (line 188) is a compile-time check and is left out.
- `std::shared_ptr` reference counting and `make_shared` are modelled by fresh arrays. A delivery keeps the array reference and a snapshot of its contents.
- The copy operations (deleted) and the move constructor and move assignment (lines 60-67) are not modelled.
- The race in `Close` (line 77) is left out: the model is single-threaded.
- block_sink.hpp and the concrete sinks (File, ChannelSink) are not part of this model. The sink is a recording class with `AppendBlock`, `AppendVirtualBlock` and `Close`. A failure raised by a sink is not modelled.
- The `ItemWriterToolsBase` helpers (item_serialization_tools.hpp) are not part of this model.
- Integer widths: the cursor, item counts and offsets are unbounded `nat`s. The cursor and offsets stay within 0..`BlockSize`, but `nitems_` is bounded only by the number of `MarkItem` calls (an item can be marked without writing a byte); its wrap-around after 2^64 marks in one block is not modelled.
- `current_` and `end_` are pointers; the model keeps the cursor as an offset, and `end_` is always the block size.
- Strings are sequences of characters below 256, one byte each, as in a `std::string`.
- Block size 0: the model requires `blockSize > 0`, and the code does not check it. With `BlockSize == 0`, `Append` of a non-empty range never ends, because every turn copies nothing and flushes (lines 145-155); `PutByte` writes past the end of the block (line 173).
- One writer per sink: the invariant states that the sink's log is what it held when the writer was attached followed by this writer's deliveries. The code allows several writers to share a sink (`sink_` is a plain non-owning pointer, line 240); interleaved deliveries from several writers are not modelled.
- Writer.BlockWriter.Append and the other writing operations do not carry a whole-history invariant that every delivered array still holds its snapshot. Per call, the contracts of Append, AppendString, Put, AppendItemBytes, AppendItem, MarkItem, PutByte and Flush state that the first block they deliver is the old block and that writing continues in a fresh one; `Scenarios.FlushThenAppend` derives from this that a flushed block is not written again.

Points of the code that the model states explicitly:

- Close releases the block only when `MaybeFlushBlock` delivers it (lines 213-220); a Close on an empty block keeps it. In the model `hasBlock` then stays true (stated by Close's contract), and a later destructor call calls Close again, which does nothing.
- `FlushBlock` (line 208) and `AppendBlocks` (line 100) dereference the sink without a null check. The model requires a sink whenever these would deliver. Writing operations therefore require a sink unless their bytes fit the current block. `Close` checks for the sink (line 80) but reaches `FlushBlock` through `MaybeFlushBlock`, so it requires a sink when the block is non-empty.
- Use after Close: the code asserts `!closed_` only in the item operator, `Append` and `PutByte` (lines 124, 141, 166). After a Close that delivered, `block_` and `current_` are null (lines 217-218), so writing through them is undefined; the model treats any writing operation after Close as a caller error and requires an open writer.

=== FILE: block_sink.dfy ===
/*
 * The destination a block writer delivers to. The real sinks (a file, a
 * network channel) are outside this model; this one records every call it
 * receives, in order, which is all the writer's contracts observe.
 */
module Sink {
  import opened Blocks

  class BlockSink {
    /** Every block received, in delivery order. */
    var log: seq<Delivery>
    /** Number of end-of-stream signals received. */
    var closeCount: nat

    constructor ()
      ensures log == [] && closeCount == 0
    {
      log := [];
      closeCount := 0;
    }

    /**
     * Accepts a block the writer filled, with its valid byte range and item
     * metadata. The sink keeps the block reference; the writer must not write
     * into it again.
     */
    method AppendBlock(block: array<byte>, offset: nat, length: nat,
                       firstItemOffset: nat, itemCount: nat)
      requires offset + length <= block.Length
      requires firstItemOffset <= length
      modifies this
      ensures log == old(log) + [Emitted(block, block[..], offset, length, firstItemOffset, itemCount)]
      ensures closeCount == old(closeCount)
    {
      log := log + [Emitted(block, block[..], offset, length, firstItemOffset, itemCount)];
    }

    /** Accepts an already existing virtual block unchanged. */
    method AppendVirtualBlock(vb: VirtualBlock)
      modifies this
      ensures log == old(log) + [Forwarded(vb)]
      ensures closeCount == old(closeCount)
    {
      log := log + [Forwarded(vb)];
    }

    /** End of stream. */
    method Close()
      modifies this
      ensures log == old(log)
      ensures closeCount == old(closeCount) + 1
    {
      closeCount := closeCount + 1;
    }
  }
}

=== FILE: block_writer.dfy ===
/*
 * The block writer: packs bytes into a fixed-capacity block, counts the items
 * that start in it and the offset of the first one, splits appends across
 * block boundaries, and hands every finished block to its sink before
 * starting a fresh one.
 *
 * Every writing operation states what it hands to the sink as a round trip:
 * the valid bytes of the blocks it delivered, followed by the bytes left in
 * the current block, are the bytes that were in the current block before,
 * followed by the bytes the operation was given.
 */
module Writer {
  import opened Blocks
  import opened Sink

  class BlockWriter {
    /** Capacity of every block (the BlockSize template parameter). */
    const blockSize: nat
    /** The attached sink; null when none is attached. */
    const sink: BlockSink?

    /** The current block. Only meaningful while `hasBlock`. */
    var block: array<byte>
    /** The block reference is held (released by a Close that delivered the last block). */
    var hasBlock: bool
    /** Write cursor, as an offset from the start of the block. */
    var cursor: nat
    /** Number of items that start in the current block. */
    var nitems: nat
    /** Offset of the first item that starts in the current block. */
    var firstOffset: nat
    var closed: bool

    /** The sink's log when the writer was attached: those deliveries are not the writer's. */
    ghost const prior: seq<Delivery>
    /** The sink's close count when the writer was attached. */
    ghost const closesAtStart: nat
    /** The writer has sent its end-of-stream signal. */
    ghost var sinkClosed: bool
    /** The deliveries this writer made, in order. */
    ghost var delivered: seq<Delivery>
    /** Number of items marked so far. */
    ghost var marked: nat

    /** The bytes written into the current block so far. */
    ghost function Prefix(): seq<byte>
      reads this, block
      requires cursor <= block.Length
    {
      block[..cursor]
    }

    /** The deliveries made since the writer had made `n` of them. */
    ghost function Since(n: nat): seq<Delivery>
      reads this
      requires n <= |delivered|
    {
      delivered[n..]
    }

    /**
     * Structural invariant: cursor and first-item offset within the block,
     * the sink's log is what it held before plus this writer's deliveries,
     * and every block the writer emitted is well-formed.
     */
    ghost predicate Shape()
      reads this, block, sink
    {
      0 < blockSize && block.Length == blockSize && cursor <= blockSize &&
      (nitems > 0 ==> firstOffset <= cursor && firstOffset < blockSize) &&
      (hasBlock && nitems == 0 ==> firstOffset == 0) &&
      (!hasBlock ==> cursor == 0 && nitems == 0) &&
      (sink == null ==> delivered == []) &&
      (sink != null ==>
        sink.log == prior + delivered &&
        sink.closeCount == closesAtStart + (if sinkClosed then 1 else 0)) &&
      AllWellFormed(delivered, blockSize)
    }

    /** Shape plus the item ledger: the delivered item counts plus the current block's count are every item marked. */
    ghost predicate Core()
      reads this, block, sink
    {
      Shape() && OwnItems(delivered) + nitems == marked
    }

    /** Every marked item is accounted for by a delivered block. */
    ghost predicate Drained()
      reads this, block, sink
    {
      Shape() && OwnItems(delivered) == marked
    }

    /** The writer's invariant between public calls. */
    ghost predicate Valid()
      reads this, block, sink
    {
      Core() &&
      closed == sinkClosed &&
      (!closed ==> hasBlock) &&
      (closed ==> cursor == 0 && nitems == 0)
    }

    /** Starts writing into a fresh block for `sink` (which may be null). */
    constructor (sink: BlockSink?, blockSize: nat)
      requires blockSize > 0
      ensures Valid() && fresh(block)
      ensures this.sink == sink && this.blockSize == blockSize
      ensures hasBlock && !closed && cursor == 0 && nitems == 0 && firstOffset == 0
      ensures delivered == [] && marked == 0
      ensures sink != null ==> prior == sink.log && closesAtStart == sink.closeCount
    {
      this.blockSize := blockSize;
      this.sink := sink;
      closed := false;
      sinkClosed := false;
      prior := if sink == null then [] else sink.log;
      closesAtStart := if sink == null then 0 else sink.closeCount;
      delivered := [];
      marked := 0;
      // the initial AllocateBlock, inlined: a constructor sets every field before it may call a method
      block := new byte[blockSize];
      hasBlock := true;
      cursor := 0;
      nitems := 0;
      firstOffset := 0;
    }

    /** Whether an actual sink is attached. */
    predicate IsValid(): (r: bool)
      reads this, block, sink
      ensures r <==> sink != null
      ensures Shape() && !r ==> delivered == []
    {
      sink != null
    }

    /** Replaces the current block by a fresh one and resets the cursor and the item metadata. */
    method AllocateBlock()
      requires Drained()
      modifies this`block, this`hasBlock, this`cursor, this`nitems, this`firstOffset
      ensures Core() && hasBlock && fresh(block)
      ensures cursor == 0 && nitems == 0 && firstOffset == 0
    {
      block := new byte[blockSize];
      hasBlock := true;
      cursor := 0;
      nitems := 0;
      firstOffset := 0;
    }

    /** Hands the current block to the sink: offset 0, the bytes written so far, and the item metadata. */
    method FlushBlock()
      requires Core() && hasBlock && sink != null
      modifies sink, this`delivered
      ensures Drained()
      ensures delivered == old(delivered) + [Emitted(block, block[..], 0, cursor, firstOffset, nitems)]
      ensures Range(delivered[|old(delivered)|]) == Prefix()
    {
      var d := Emitted(block, block[..], 0, cursor, firstOffset, nitems);
      sink.AppendBlock(block, 0, cursor, firstOffset, nitems);
      OwnItemsConcat(delivered, [d]);
      assert OwnItems([d]) == nitems + OwnItems([]);
      AllWellFormedSnoc(delivered, d, blockSize);
      delivered := delivered + [d];
    }

    /**
     * Hands the current block to the sink only if a byte was written or an
     * item started in it, and then releases it.
     */
    method MaybeFlushBlock()
      requires Core() && hasBlock
      requires sink != null || (cursor == 0 && nitems == 0)
      modifies sink, this`delivered, this`nitems, this`hasBlock, this`cursor
      ensures Core() && Drained() && cursor == 0 && nitems == 0
      ensures hasBlock == (old(cursor) == 0 && old(nitems) == 0)
      ensures delivered == old(delivered) + Leftover(block, old(block[..]), old(cursor), firstOffset, old(nitems))
      ensures Payload(Since(|old(delivered)|)) == old(Prefix())
    {
      LeftoverPayload(block, block[..], cursor, firstOffset, nitems);
      if cursor != 0 || nitems != 0 {
        FlushBlock();
        nitems := 0;
        hasBlock := false;
        cursor := 0;
      }
      assert Since(|old(delivered)|) == Leftover(block, old(block[..]), old(cursor), firstOffset, old(nitems));
    }

    /** Hands the current block to the sink, even when it is empty, and starts a fresh one. */
    method Flush()
      requires Valid() && !closed && sink != null
      modifies this, sink
      ensures Valid() && !closed && hasBlock && fresh(block)
      ensures delivered == old(delivered) + [Emitted(old(block), old(block[..]), 0, old(cursor), old(firstOffset), old(nitems))]
      ensures Range(delivered[|old(delivered)|]) == old(Prefix())
      ensures cursor == 0 && nitems == 0 && firstOffset == 0 && marked == old(marked)
    {
      FlushBlock();
      AllocateBlock();
    }

    /**
     * Copies `src` into the current block at the cursor and advances the
     * cursor past it (the std::copy and cursor advance of Append).
     */
    method Fill(src: seq<byte>)
      requires Valid() && !closed && cursor + |src| <= blockSize
      modifies block, this`cursor
      ensures Valid()
      ensures cursor == old(cursor) + |src|
      ensures Prefix() == old(Prefix()) + src
    {
      ghost var p := Prefix();
      var i := 0;
      while i < |src|
        invariant 0 <= i <= |src|
        invariant block[..cursor] == p
        invariant block[cursor..cursor + i] == src[..i]
        modifies block
      {
        block[cursor + i] := src[i];
        i := i + 1;
      }
      assert block[..cursor + |src|] == block[..cursor] + block[cursor..cursor + |src|];
      cursor := cursor + |src|;
    }

    /** Appends one byte; flushes first only when the block is full. */
    method PutByte(b: byte)
      requires Valid() && !closed
      requires sink != null || cursor < blockSize
      modifies this, block, sink
      ensures Valid() && !closed && 0 < cursor <= blockSize && marked == old(marked)
      ensures old(cursor) < blockSize ==>
        delivered == old(delivered) && block == old(block) &&
        cursor == old(cursor) + 1 && Prefix() == old(Prefix()) + [b] &&
        nitems == old(nitems) && firstOffset == old(firstOffset)
      ensures old(cursor) == blockSize ==>
        delivered == old(delivered) + [Emitted(old(block), old(block[..]), 0, blockSize, old(firstOffset), old(nitems))] &&
        Range(delivered[|old(delivered)|]) == old(Prefix()) &&
        fresh(block) && cursor == 1 && Prefix() == [b] && nitems == 0 && firstOffset == 0
    {
      if cursor < blockSize {
        Fill([b]);
      } else {
        Flush();
        Fill([b]);
      }
    }

    /**
     * Marks the start of an item at the cursor. A full block is flushed first,
     * so an item never starts where no byte fits.
     */
    method MarkItem()
      requires Valid() && !closed
      requires sink != null || cursor < blockSize
      modifies this, sink
      ensures Valid() && !closed && marked == old(marked) + 1
      ensures firstOffset <= cursor < blockSize
      ensures |old(delivered)| <= |delivered| && Payload(Since(|old(delivered)|)) + Prefix() == old(Prefix())
      ensures old(cursor) == blockSize ==>
        delivered == old(delivered) + [Emitted(old(block), old(block[..]), 0, blockSize, old(firstOffset), old(nitems))] &&
        Range(delivered[|old(delivered)|]) == old(Prefix()) &&
        fresh(block) && cursor == 0 && nitems == 1 && firstOffset == 0
      ensures old(cursor) < blockSize ==>
        delivered == old(delivered) && block == old(block) && cursor == old(cursor) &&
        nitems == old(nitems) + 1 &&
        firstOffset == (if old(nitems) == 0 then old(cursor) else old(firstOffset))
    {
      if cursor == blockSize {
        Flush();
        assert Since(|old(delivered)|) == [delivered[|old(delivered)|]];
        PayloadOne(delivered[|old(delivered)|]);
      } else {
        assert Since(|old(delivered)|) == [];
      }
      if nitems == 0 {
        firstOffset := cursor;
      }
      nitems := nitems + 1;
      marked := marked + 1;
    }

    /**
     * Closes the writer once: delivers the current block if a byte was written
     * or an item started in it, then closes the sink if there is one. Later
     * calls change nothing.
     */
    method Close()
      requires Valid()
      requires closed || sink != null || (cursor == 0 && nitems == 0)
      modifies this, sink
      ensures Valid() && closed && OwnItems(delivered) == marked
      ensures sink != null ==> sink.closeCount == closesAtStart + 1
      ensures old(closed) ==> unchanged(this) && (sink != null ==> unchanged(sink))
      ensures !old(closed) ==>
        delivered == old(delivered) +
          Leftover(old(block), old(block[..]), old(cursor), old(firstOffset), old(nitems)) &&
        Payload(Since(|old(delivered)|)) == old(Prefix()) && marked == old(marked)
      ensures !old(closed) ==> hasBlock == (old(cursor) == 0 && old(nitems) == 0)
    {
      if !closed {
        closed := true;
        MaybeFlushBlock();
        if sink != null {
          sink.Close();
        }
        sinkClosed := true;
      }
    }

    /** Destruction: closes the writer if it still holds a block. */
    method Destroy()
      requires Valid()
      requires closed || sink != null || (cursor == 0 && nitems == 0)
      modifies this, sink
      ensures Valid() && closed && OwnItems(delivered) == marked
      ensures sink != null ==> sink.closeCount == closesAtStart + 1
      ensures old(closed) ==> unchanged(this) && (sink != null ==> unchanged(sink))
      ensures !old(closed) ==>
        delivered == old(delivered) +
          Leftover(old(block), old(block[..]), old(cursor), old(firstOffset), old(nitems)) &&
        Payload(Since(|old(delivered)|)) == old(Prefix()) && marked == old(marked)
      ensures !old(closed) ==> hasBlock == (old(cursor) == 0 && old(nitems) == 0)
    {
      if hasBlock {
        Close();
      }
    }

    /** Hands the virtual blocks to the sink unchanged and in order (the loop of AppendBlocks). */
    method ForwardBlocks(vblocks: seq<VirtualBlock>)
      requires Drained()
      requires sink != null || vblocks == []
      modifies sink, this`delivered
      ensures Drained()
      ensures delivered == old(delivered) + Forwards(vblocks)
    {
      ForwardsPayload(vblocks);
      for i := 0 to |vblocks|
        invariant sink != null ==> sink.log == old(sink.log) + Forwards(vblocks[..i]) && sink.closeCount == old(sink.closeCount)
        modifies sink
      {
        sink.AppendVirtualBlock(vblocks[i]);
        assert vblocks[..i + 1] == vblocks[..i] + [vblocks[i]];
        assert Forwards(vblocks[..i + 1]) == Forwards(vblocks[..i]) + [Forwarded(vblocks[i])];
      }
      assert vblocks[..|vblocks|] == vblocks;
      assert sink != null ==> sink.log == prior + (delivered + Forwards(vblocks));
      assert sink == null ==> Forwards(vblocks) == [];
      OwnItemsConcat(delivered, Forwards(vblocks));
      AllWellFormedConcat(delivered, Forwards(vblocks), blockSize);
      delivered := delivered + Forwards(vblocks);
    }

    /** The deliveries of AppendBlocks: the current block if it holds anything, then the virtual blocks. */
    method FlushAndForward(vblocks: seq<VirtualBlock>)
      requires Core() && hasBlock
      requires sink != null || (vblocks == [] && cursor == 0 && nitems == 0)
      modifies sink, this`delivered, this`nitems, this`hasBlock, this`cursor
      ensures Drained() && cursor == 0 && nitems == 0
      ensures delivered == old(delivered) +
        Leftover(block, old(block[..]), old(cursor), firstOffset, old(nitems)) +
        Forwards(vblocks)
      ensures |old(delivered)| <= |delivered| && Payload(Since(|old(delivered)|)) == old(Prefix()) + Flatten(vblocks)
    {
      ghost var d0, p0 := delivered, Prefix();
      MaybeFlushBlock();
      ghost var d1 := delivered;
      ForwardedAfter(d0, d1, p0, vblocks);
      ForwardBlocks(vblocks);
    }

    /**
     * Delivers the current block if it holds anything, forwards the given
     * virtual blocks unchanged and in order, then starts a fresh block.
     */
    method AppendBlocks(vblocks: seq<VirtualBlock>)
      requires Valid() && !closed
      requires sink != null || (vblocks == [] && cursor == 0 && nitems == 0)
      modifies this, sink
      ensures Valid() && !closed && hasBlock && fresh(block)
      ensures cursor == 0 && nitems == 0 && firstOffset == 0 && marked == old(marked)
      ensures delivered == old(delivered) +
        Leftover(old(block), old(block[..]), old(cursor), old(firstOffset), old(nitems)) +
        Forwards(vblocks)
      ensures Payload(Since(|old(delivered)|)) == old(Prefix()) + Flatten(vblocks)
    {
      FlushAndForward(vblocks);
      AllocateBlock();
    }

    /**
     * One turn of the Append loop: fills the rest of the current block with
     * `src` and flushes it as a full block.
     */
    method Spill(src: seq<byte>)
      requires Valid() && !closed && sink != null && cursor + |src| == blockSize
      modifies this, block, sink
      ensures Valid() && !closed && fresh(block)
      ensures cursor == 0 && nitems == 0 && firstOffset == 0 && marked == old(marked)
      ensures |delivered| == |old(delivered)| + 1 && delivered[..|old(delivered)|] == old(delivered)
      ensures delivered[|old(delivered)|].Emitted? && delivered[|old(delivered)|].block == old(block)
      ensures delivered[|old(delivered)|].offset == 0 && delivered[|old(delivered)|].length == blockSize
      ensures delivered[|old(delivered)|].firstItemOffset == old(firstOffset)
      ensures delivered[|old(delivered)|].itemCount == old(nitems)
      ensures Range(delivered[|old(delivered)|]) == old(Prefix()) + src
    {
      Fill(src);
      Flush();
    }

    /**
     * One turn of the Append loop: the rest of the current block is filled
     * from `data` at `pos` and the block is flushed as a full block.
     */
    method Turn(data: seq<byte>, pos: nat, ghost emitted: seq<Delivery>,
                ghost c0: nat, ghost d0: seq<Delivery>, ghost p0: seq<byte>, ghost f0: nat, ghost k0: nat)
      returns (pos': nat, ghost emitted': seq<Delivery>)
      requires Valid() && !closed && sink != null
      requires AppendProgress(blockSize, data, c0, d0, p0, f0, k0, pos, emitted, cursor, delivered, Prefix())
      requires cursor + (|data| - pos) > blockSize
      requires emitted == [] ==> nitems == k0 && firstOffset == f0
      requires emitted != [] ==> nitems == 0 && firstOffset == 0
      modifies this, block, sink
      ensures Valid() && !closed && fresh(block) && marked == old(marked)
      ensures cursor == 0 && nitems == 0 && firstOffset == 0
      ensures pos' == pos + (blockSize - old(cursor))
      ensures AppendProgress(blockSize, data, c0, d0, p0, f0, k0, pos', emitted', cursor, delivered, Prefix())
      ensures emitted' != [] && emitted'[0].Emitted?
      ensures emitted'[0].block == if emitted == [] then old(block) else emitted[0].block
    {
      ghost var cb, dd, before := cursor, delivered, Prefix();
      pos' := pos + (blockSize - cursor);
      Spill(data[pos..pos']);
      AppendProgressStep(blockSize, data, c0, d0, p0, f0, k0, pos, emitted, cb, dd, before, delivered);
      emitted' := emitted + [delivered[|dd|]];
    }

    /**
     * The loop of Append: while the rest of `data` would overrun the current
     * block, fills the block to its end and flushes it. Returns how much of
     * `data` went out that way, and the blocks delivered.
     */
    method SpillOverrun(data: seq<byte>) returns (pos: nat, ghost emitted: seq<Delivery>)
      requires Valid() && !closed
      requires sink != null || cursor + |data| <= blockSize
      modifies this, block, sink
      ensures Valid() && !closed && marked == old(marked)
      ensures cursor + (|data| - pos) <= blockSize
      ensures AppendProgress(blockSize, data, old(cursor), old(delivered), old(Prefix()),
                             old(firstOffset), old(nitems), pos, emitted, cursor, delivered, Prefix())
      ensures emitted == [] ==>
        pos == 0 && cursor == old(cursor) && block == old(block) &&
        nitems == old(nitems) && firstOffset == old(firstOffset)
      ensures emitted != [] ==>
        fresh(block) && nitems == 0 && firstOffset == 0 && emitted[0].block == old(block)
    {
      ghost var c0, b0, d0, p0, f0, k0, m0 := cursor, block, delivered, Prefix(), firstOffset, nitems, marked;
      emitted := [];
      pos := 0;
      while cursor + (|data| - pos) > blockSize
        invariant Valid() && !closed && marked == m0
        invariant AppendProgress(blockSize, data, c0, d0, p0, f0, k0, pos, emitted, cursor, delivered, Prefix())
        invariant emitted == [] ==>
          pos == 0 && cursor == c0 && block == b0 && nitems == k0 && firstOffset == f0
        invariant emitted != [] ==>
          sink != null && cursor == 0 && fresh(block) && nitems == 0 && firstOffset == 0 &&
          emitted[0].Emitted? && emitted[0].block == b0
        decreases |data| - pos + cursor
      {
        pos, emitted := Turn(data, pos, emitted, c0, d0, p0, f0, k0);
      }
    }

    /**
     * Appends `data`, splitting it across blocks: while the bytes would
     * overrun the current block, the block is filled to its end and flushed;
     * the rest is copied into the current block. Bytes that exactly fill the
     * block stay in it unflushed.
     */
    method Append(data: seq<byte>)
      requires Valid() && !closed
      requires sink != null || cursor + |data| <= blockSize
      modifies this, block, sink
      ensures Valid() && !closed && marked == old(marked)
      ensures Appended(blockSize, data, old(cursor), old(delivered), old(Prefix()), old(firstOffset), old(nitems),
                       cursor, delivered, Prefix(), firstOffset, nitems)
      ensures |delivered| == |old(delivered)| ==> block == old(block)
      ensures |delivered| > |old(delivered)| ==> fresh(block) && delivered[|old(delivered)|].block == old(block)
    {
      ghost var c0, d0, p0, f0, k0 := cursor, delivered, Prefix(), firstOffset, nitems;
      var pos, emitted := SpillOverrun(data);
      ghost var c1, mid := cursor, Prefix();
      Fill(data[pos..]);
      AppendProgressDone(blockSize, data, c0, d0, p0, f0, k0, pos, emitted, c1, delivered, mid, Prefix());
      assert Since(|d0|) == emitted;
    }

    /** Appends the bytes of a string, without a terminator. */
    method AppendString(str: string)
      requires Valid() && !closed && IsByteString(str)
      requires sink != null || cursor + |str| <= blockSize
      modifies this, block, sink
      ensures Valid() && !closed && marked == old(marked)
      ensures Appended(blockSize, StringBytes(str), old(cursor), old(delivered), old(Prefix()), old(firstOffset),
                       old(nitems), cursor, delivered, Prefix(), firstOffset, nitems)
      ensures |delivered| == |old(delivered)| ==> block == old(block)
      ensures |delivered| > |old(delivered)| ==> fresh(block) && delivered[|old(delivered)|].block == old(block)
    {
      Append(StringBytes(str));
    }

    /**
     * Appends a plain value of `width` bytes as it lies in memory: an unsigned
     * integer, least significant byte first.
     */
    method Put(value: nat, width: nat)
      requires Valid() && !closed && value < Pow256(width)
      requires sink != null || cursor + width <= blockSize
      modifies this, block, sink
      ensures Valid() && !closed && marked == old(marked)
      ensures Appended(blockSize, LittleEndian(value, width), old(cursor), old(delivered), old(Prefix()),
                       old(firstOffset), old(nitems), cursor, delivered, Prefix(), firstOffset, nitems)
      ensures |delivered| == |old(delivered)| ==> block == old(block)
      ensures |delivered| > |old(delivered)| ==> fresh(block) && delivered[|old(delivered)|].block == old(block)
    {
      Append(LittleEndian(value, width));
    }

    /**
     * The bytes of an item after its start is marked, written as two appends:
     * the 8-byte type hash when self-verification is on, then the serialized
     * item. Together they act as one append of both.
     */
    method AppendItemBytes(serialized: seq<byte>, selfVerify: bool, typeHash: nat)
      requires Valid() && !closed && typeHash < Pow256(8)
      requires sink != null || cursor + (if selfVerify then 8 else 0) + |serialized| <= blockSize
      modifies this, block, sink
      ensures Valid() && !closed && marked == old(marked)
      ensures Appended(blockSize, ItemBytes(serialized, selfVerify, typeHash), old(cursor), old(delivered),
                       old(Prefix()), old(firstOffset), old(nitems), cursor, delivered, Prefix(), firstOffset, nitems)
      ensures |delivered| == |old(delivered)| ==> block == old(block)
      ensures |delivered| > |old(delivered)| ==> fresh(block) && delivered[|old(delivered)|].block == old(block)
    {
      ghost var c1, d1, p1, f1, k1 := cursor, delivered, Prefix(), firstOffset, nitems;
      ghost var header: seq<byte> := [];
      if selfVerify {
        header := LittleEndian(typeHash, 8);
        Put(typeHash, 8);
      } else {
        AppendedNothing(blockSize, c1, d1, p1, f1, k1);
      }
      ghost var c2, d2, p2, f2, k2 := cursor, delivered, Prefix(), firstOffset, nitems;
      Append(serialized);
      AppendedTwice(blockSize, header, serialized, c1, d1, p1, f1, k1, c2, d2, p2, f2, k2,
                    cursor, delivered, Prefix(), firstOffset, nitems);
    }

    /**
     * Appends one complete item: marks its start (handing over a full block
     * first), then writes its bytes. The block the item starts in counts it
     * and, when it is the first item there, reports its offset.
     */
    method AppendItem(serialized: seq<byte>, selfVerify: bool, typeHash: nat)
      requires Valid() && !closed && typeHash < Pow256(8)
      requires sink != null ||
        (cursor < blockSize && cursor + (if selfVerify then 8 else 0) + |serialized| <= blockSize)
      modifies this, block, sink
      ensures Valid() && !closed && marked == old(marked) + 1
      ensures cursor == AppendCursor(if old(cursor) == blockSize then 0 else old(cursor),
                                     |ItemBytes(serialized, selfVerify, typeHash)|, blockSize)
      ensures |old(delivered)| <= |delivered| && delivered[..|old(delivered)|] == old(delivered)
      ensures |delivered| == |old(delivered)| + (if old(cursor) == blockSize then 1 else 0) +
        AppendFlushes(if old(cursor) == blockSize then 0 else old(cursor),
                      |ItemBytes(serialized, selfVerify, typeHash)|, blockSize)
      ensures old(cursor) == blockSize ==>
        delivered[|old(delivered)|] ==
          Emitted(old(block), old(block[..]), 0, blockSize, old(firstOffset), old(nitems))
      ensures Payload(Since(|old(delivered)|)) + Prefix() == old(Prefix()) + ItemBytes(serialized, selfVerify, typeHash)
      ensures ItemLands(blockSize, old(cursor), old(nitems), old(firstOffset), |old(delivered)|,
                        delivered, nitems, firstOffset)
      ensures |delivered| == |old(delivered)| ==> block == old(block)
      ensures |delivered| > |old(delivered)| ==> fresh(block) && delivered[|old(delivered)|].block == old(block)
    {
      ghost var c0, d0, p0, f0, k0 := cursor, delivered, Prefix(), firstOffset, nitems;
      MarkItem();
      ghost var c1, d1, p1, f1, k1 := cursor, delivered, Prefix(), firstOffset, nitems;
      AppendItemBytes(serialized, selfVerify, typeHash);
      ItemRecorded(blockSize, ItemBytes(serialized, selfVerify, typeHash), c0, d0, p0, f0, k0,
                   c1, d1, p1, f1, k1, cursor, delivered, Prefix(), firstOffset, nitems);
    }
  }
}

=== FILE: blocks.dfy ===
/*
 * Values shared by the block writer and its sink: bytes, the descriptors a
 * sink receives, the byte stream and item count they carry, the raw byte
 * layout of a fixed-width value, and the arithmetic of how an append is
 * segmented across blocks.
 */
module Blocks {

  /** An unsigned char, the unit a block stores. */
  newtype byte = b: int | 0 <= b < 256

  /**
   * A range of an existing block, forwarded to a sink unchanged. `bytes` is
   * the valid range of the referenced block (an immutable snapshot stands in
   * for the shared block reference); `firstItemOffset` and `itemCount` are
   * the item-boundary metadata that travel with it.
   */
  datatype VirtualBlock = VirtualBlock(bytes: seq<byte>, firstItemOffset: nat, itemCount: nat)

  /**
   * One block as a sink received it.
   * Emitted: a block the writer filled itself, delivered as the block
   *   reference, the block's contents at delivery time, and the byte range
   *   and item metadata of the AppendBlock call.
   * Forwarded: a virtual block handed on unchanged.
   */
  datatype Delivery =
    | Emitted(block: array<byte>, bytes: seq<byte>, offset: nat, length: nat,
              firstItemOffset: nat, itemCount: nat)
    | Forwarded(vb: VirtualBlock)

  /** The valid bytes a delivery carries. */
  function Range(d: Delivery): (r: seq<byte>)
    ensures d.Emitted? && d.offset + d.length <= |d.bytes| ==> |r| == d.length
  {
    match d
    case Emitted(_, bytes, offset, length, _, _) =>
      if offset + length <= |bytes| then bytes[offset..offset + length] else []
    case Forwarded(vb) => vb.bytes
  }

  /** The byte stream a sink reconstructs by concatenating the valid ranges of its deliveries in order. */
  function Payload(ds: seq<Delivery>): seq<byte>
  {
    if ds == [] then [] else Range(ds[0]) + Payload(ds[1..])
  }

  /** Number of items that start in the blocks the writer emitted itself (forwarded blocks excluded). */
  function OwnItems(ds: seq<Delivery>): nat
  {
    if ds == [] then 0
    else (if ds[0].Emitted? then ds[0].itemCount else 0) + OwnItems(ds[1..])
  }

  /**
   * The metadata constraints of a block a writer with capacity `blockSize`
   * delivers: the whole block is handed over, the valid range starts at 0 and
   * fits, the first-item offset lies within the valid range and, when an item
   * starts in the block, before the block's end; a block where no item starts
   * reports offset 0.
   */
  predicate WellFormed(d: Delivery, blockSize: nat)
  {
    d.Emitted? &&
    |d.bytes| == blockSize && d.offset == 0 && d.length <= blockSize &&
    d.firstItemOffset <= d.length &&
    (d.itemCount > 0 ==> d.firstItemOffset < blockSize) &&
    (d.itemCount == 0 ==> d.firstItemOffset == 0)
  }

  /** Every block the writer emitted itself in `ds` is well-formed for capacity `blockSize`. */
  predicate AllWellFormed(ds: seq<Delivery>, blockSize: nat)
  {
    ds == [] || ((ds[0].Emitted? ==> WellFormed(ds[0], blockSize)) && AllWellFormed(ds[1..], blockSize))
  }

  lemma {:induction false} AllWellFormedConcat(a: seq<Delivery>, b: seq<Delivery>, blockSize: nat)
    ensures AllWellFormed(a + b, blockSize) <==> AllWellFormed(a, blockSize) && AllWellFormed(b, blockSize)
  {
    if a == [] {
      assert a + b == b;
    } else {
      assert (a + b)[1..] == a[1..] + b;
      AllWellFormedConcat(a[1..], b, blockSize);
    }
  }

  /** Appending one well-formed block keeps the whole log well-formed. */
  lemma AllWellFormedSnoc(ds: seq<Delivery>, d: Delivery, blockSize: nat)
    requires AllWellFormed(ds, blockSize) && WellFormed(d, blockSize)
    ensures AllWellFormed(ds + [d], blockSize)
  {
    AllWellFormedConcat(ds, [d], blockSize);
    assert [d][1..] == [];
  }

  lemma {:induction false} PayloadConcat(a: seq<Delivery>, b: seq<Delivery>)
    ensures Payload(a + b) == Payload(a) + Payload(b)
  {
    if a == [] {
      assert a + b == b;
    } else {
      assert (a + b)[1..] == a[1..] + b;
      PayloadConcat(a[1..], b);
    }
  }

  lemma {:induction false} OwnItemsConcat(a: seq<Delivery>, b: seq<Delivery>)
    ensures OwnItems(a + b) == OwnItems(a) + OwnItems(b)
  {
    if a == [] {
      assert a + b == b;
    } else {
      assert (a + b)[1..] == a[1..] + b;
      OwnItemsConcat(a[1..], b);
    }
  }

  /** Appending one delivery extends the stream by its range and the item count by its own items. */
  lemma PayloadSnoc(ds: seq<Delivery>, d: Delivery)
    ensures Payload(ds + [d]) == Payload(ds) + Range(d)
    ensures OwnItems(ds + [d]) == OwnItems(ds) + (if d.Emitted? then d.itemCount else 0)
  {
    PayloadConcat(ds, [d]);
    OwnItemsConcat(ds, [d]);
    assert Payload([d]) == Range(d) + Payload([]);
    assert OwnItems([d]) == (if d.Emitted? then d.itemCount else 0) + OwnItems([]);
  }

  /** A single delivery carries exactly its own range. */
  lemma PayloadOne(d: Delivery)
    ensures Payload([d]) == Range(d)
  {
    assert Payload([d]) == Range(d) + Payload([]);
  }

  /**
   * What releasing a partially written block delivers: the block with its
   * written bytes and item metadata, or nothing when no byte was written and
   * no item started in it.
   */
  function Leftover(block: array<byte>, contents: seq<byte>, cursor: nat, first: nat, count: nat): seq<Delivery>
  {
    if cursor > 0 || count > 0 then [Emitted(block, contents, 0, cursor, first, count)] else []
  }

  lemma LeftoverPayload(block: array<byte>, contents: seq<byte>, cursor: nat, first: nat, count: nat)
    requires cursor <= |contents|
    ensures Payload(Leftover(block, contents, cursor, first, count)) == contents[..cursor]
  {
    if cursor > 0 || count > 0 {
      PayloadOne(Emitted(block, contents, 0, cursor, first, count));
    }
  }

  /** Extending both sides of an equation by the same suffix, regrouped. */
  lemma AppendBoth<T>(a: seq<T>, b: seq<T>, c: seq<T>, x: seq<T>)
    requires a + b == x
    ensures a + (b + c) == x + c
  {
    assert a + (b + c) == (a + b) + c;
  }

  /** The concatenated valid ranges of a list of virtual blocks. */
  function Flatten(vbs: seq<VirtualBlock>): seq<byte>
  {
    if vbs == [] then [] else vbs[0].bytes + Flatten(vbs[1..])
  }

  /** The deliveries a sink receives when the virtual blocks are forwarded one by one. */
  function Forwards(vbs: seq<VirtualBlock>): (ds: seq<Delivery>)
    ensures |ds| == |vbs|
    ensures forall i | 0 <= i < |vbs| :: ds[i] == Forwarded(vbs[i])
  {
    seq(|vbs|, i requires 0 <= i < |vbs| => Forwarded(vbs[i]))
  }

  /**
   * Forwarding virtual blocks adds exactly their bytes to the stream and no
   * items of the writer's own.
   */
  lemma {:induction false} ForwardsPayload(vbs: seq<VirtualBlock>)
    ensures Payload(Forwards(vbs)) == Flatten(vbs)
    ensures OwnItems(Forwards(vbs)) == 0
    ensures forall blockSize: nat :: AllWellFormed(Forwards(vbs), blockSize)
  {
    if vbs != [] {
      assert Forwards(vbs)[1..] == Forwards(vbs[1..]);
      ForwardsPayload(vbs[1..]);
    }
  }

  /**
   * Deliveries that carry `pending` since the writer had made `d0` of them,
   * followed by forwarded virtual blocks, carry `pending` followed by the
   * virtual blocks' bytes.
   */
  lemma ForwardedAfter(d0: seq<Delivery>, d1: seq<Delivery>, pending: seq<byte>, vbs: seq<VirtualBlock>)
    requires |d0| <= |d1| && Payload(d1[|d0|..]) == pending
    ensures (d1 + Forwards(vbs))[|d0|..] == d1[|d0|..] + Forwards(vbs)
    ensures Payload((d1 + Forwards(vbs))[|d0|..]) == pending + Flatten(vbs)
  {
    assert (d1 + Forwards(vbs))[|d0|..] == d1[|d0|..] + Forwards(vbs);
    PayloadConcat(d1[|d0|..], Forwards(vbs));
    ForwardsPayload(vbs);
  }

  /**
   * The deliveries of one append: whole blocks with their valid range
   * starting at 0 and filling the block; the first carries the item metadata
   * of the block the append started in, every later one carries none.
   */
  predicate FullSegment(ds: seq<Delivery>, blockSize: nat, first: nat, count: nat)
  {
    (forall i | 0 <= i < |ds| :: ds[i].Emitted? && ds[i].offset == 0 && ds[i].length == blockSize) &&
    (forall i | 1 <= i < |ds| :: ds[i].firstItemOffset == 0 && ds[i].itemCount == 0) &&
    (|ds| > 0 ==> ds[0].firstItemOffset == first && ds[0].itemCount == count)
  }

  /** One more full block, carrying no items unless it is the first of the segment. */
  lemma FullSegmentSnoc(ds: seq<Delivery>, d: Delivery, blockSize: nat, first: nat, count: nat)
    requires FullSegment(ds, blockSize, first, count)
    requires d.Emitted? && d.offset == 0 && d.length == blockSize
    requires ds == [] ==> d.firstItemOffset == first && d.itemCount == count
    requires ds != [] ==> d.firstItemOffset == 0 && d.itemCount == 0
    ensures FullSegment(ds + [d], blockSize, first, count)
  {
    var e := ds + [d];
    assert forall i | 0 <= i < |ds| :: e[i] == ds[i];
    assert e[|ds|] == d;
  }

  /**
   * Two runs of full blocks in a row form one run, when the second run
   * carries the metadata left after the first: the first run's metadata when
   * it is empty, none (a fresh block) otherwise.
   */
  lemma FullSegmentConcat(a: seq<Delivery>, b: seq<Delivery>, blockSize: nat,
                          first: nat, count: nat, first': nat, count': nat)
    requires FullSegment(a, blockSize, first, count) && FullSegment(b, blockSize, first', count')
    requires a == [] ==> first' == first && count' == count
    requires a != [] ==> first' == 0 && count' == 0
    ensures FullSegment(a + b, blockSize, first, count)
  {
    var e := a + b;
    assert forall i | 0 <= i < |a| :: e[i] == a[i];
    assert forall i | |a| <= i < |e| :: e[i] == b[i - |a|];
  }

  /** FullSegmentConcat for the deliveries of two operations in a row, given as snapshots of the history. */
  lemma SegmentCompose(d0: seq<Delivery>, d1: seq<Delivery>, d2: seq<Delivery>, blockSize: nat,
                       first: nat, count: nat, first': nat, count': nat)
    requires |d0| <= |d1| <= |d2| && d2[..|d1|] == d1
    requires FullSegment(d1[|d0|..], blockSize, first, count)
    requires FullSegment(d2[|d1|..], blockSize, first', count')
    requires |d1| == |d0| ==> first' == first && count' == count
    requires |d1| > |d0| ==> first' == 0 && count' == 0
    ensures FullSegment(d2[|d0|..], blockSize, first, count)
  {
    assert d2[|d0|..] == d1[|d0|..] + d2[|d1|..] by {
      assert d2 == d1 + d2[|d1|..];
    }
    FullSegmentConcat(d1[|d0|..], d2[|d1|..], blockSize, first, count, first', count');
  }

  // ---------------------------------------------------------------------
  // Raw layout of a fixed-width value (Put of a plain-old-data value)
  // ---------------------------------------------------------------------

  function Pow256(width: nat): (p: nat)
    ensures p > 0
  {
    if width == 0 then 1 else 256 * Pow256(width - 1)
  }

  /** The `width` bytes of an unsigned integer in memory on a little-endian host, least significant first. */
  function LittleEndian(value: nat, width: nat): (r: seq<byte>)
    requires value < Pow256(width)
    ensures |r| == width
    ensures width > 0 ==> r[0] as int == value % 256
  {
    if width == 0 then []
    else [(value % 256) as byte] + LittleEndian(value / 256, width - 1)
  }

  /** Reads an unsigned integer back from its little-endian bytes. */
  function FromLittleEndian(s: seq<byte>): (v: nat)
    ensures v < Pow256(|s|)
  {
    if s == [] then 0 else s[0] as nat + 256 * FromLittleEndian(s[1..])
  }

  /** Decoding the bytes `Put` writes gives back the value. */
  lemma {:induction false} LittleEndianRoundTrip(value: nat, width: nat)
    requires value < Pow256(width)
    ensures FromLittleEndian(LittleEndian(value, width)) == value
  {
    if width > 0 {
      var r := LittleEndian(value, width);
      assert r[1..] == LittleEndian(value / 256, width - 1);
      LittleEndianRoundTrip(value / 256, width - 1);
    }
  }

  /** Encoding is injective: two different values of one width never share their bytes. */
  lemma LittleEndianInjective(x: nat, y: nat, width: nat)
    requires x < Pow256(width) && y < Pow256(width)
    requires LittleEndian(x, width) == LittleEndian(y, width)
    ensures x == y
  {
    LittleEndianRoundTrip(x, width);
    LittleEndianRoundTrip(y, width);
  }

  /**
   * The bytes the item operator writes after marking an item: under
   * self-verification the item's 8-byte type hash first, then the serialized
   * item. A reader finds the serialized item at the end and, under
   * self-verification, reads the hash back from the first 8 bytes.
   */
  function ItemBytes(serialized: seq<byte>, selfVerify: bool, typeHash: nat): (r: seq<byte>)
    requires typeHash < Pow256(8)
    ensures |r| == (if selfVerify then 8 else 0) + |serialized|
    ensures r[|r| - |serialized|..] == serialized
    ensures selfVerify ==> FromLittleEndian(r[..8]) == typeHash
  {
    LittleEndianRoundTrip(typeHash, 8);
    var header := if selfVerify then LittleEndian(typeHash, 8) else [];
    assert (header + serialized)[..|header|] == header;
    header + serialized
  }

  // ---------------------------------------------------------------------
  // Segmentation arithmetic of Append
  // ---------------------------------------------------------------------

  /**
   * Number of full blocks an append of `size` bytes at cursor offset `cursor`
   * hands to the sink. The loop flushes only while the bytes would overrun
   * the block (a strict `>`), so bytes that exactly fill it stay unflushed.
   */
  function AppendFlushes(cursor: nat, size: nat, blockSize: nat): nat
    requires blockSize > 0
  {
    if cursor + size <= blockSize then 0 else (cursor + size - 1) / blockSize
  }

  /** Cursor offset after such an append. */
  function AppendCursor(cursor: nat, size: nat, blockSize: nat): int
    requires blockSize > 0
  {
    cursor + size - blockSize * AppendFlushes(cursor, size, blockSize)
  }

  /**
   * One turn of the append loop: when the bytes overrun the block, the block
   * is filled up, flushed, and what is left is appended at offset 0.
   */
  lemma AppendFlushesStep(cursor: nat, size: nat, blockSize: nat)
    requires blockSize > 0 && cursor <= blockSize && cursor + size > blockSize
    ensures AppendFlushes(cursor, size, blockSize)
         == 1 + AppendFlushes(0, size - (blockSize - cursor), blockSize)
    ensures AppendCursor(cursor, size, blockSize)
         == AppendCursor(0, size - (blockSize - cursor), blockSize)
  {
    var rest := size - (blockSize - cursor);
    assert cursor + size - 1 == (rest - 1) + blockSize;
    if rest <= blockSize {
      DivRange(cursor + size - 1, 1, blockSize);
    } else {
      DivShift(rest - 1, blockSize);
    }
  }

  /**
   * The segmentation of an append is determined by its shape: if `size`
   * bytes appended at `cursor` end up as `flushes` full blocks and `rest`
   * bytes in the current block, with something left over whenever a block
   * was flushed, then those are the closed forms above.
   */
  lemma SegmentationUnique(cursor: nat, size: nat, blockSize: nat, flushes: nat, rest: nat)
    requires blockSize > 0 && cursor <= blockSize && rest <= blockSize
    requires cursor + size == rest + blockSize * flushes
    requires flushes > 0 ==> rest > 0
    ensures AppendFlushes(cursor, size, blockSize) == flushes
    ensures AppendCursor(cursor, size, blockSize) == rest
  {
    if flushes > 0 {
      assert cursor + size - 1 == blockSize * flushes + (rest - 1);
      DivUnique(cursor + size - 1, blockSize, flushes, rest - 1);
    }
  }

  /**
   * The cursor an append leaves behind stays within the block, and after a
   * flush it is never 0: the loop never flushes a block and then stops with
   * nothing left to write.
   */
  lemma AppendCursorBounds(cursor: nat, size: nat, blockSize: nat)
    requires blockSize > 0 && cursor <= blockSize
    ensures 0 <= AppendCursor(cursor, size, blockSize) <= blockSize
    ensures AppendFlushes(cursor, size, blockSize) > 0 ==> AppendCursor(cursor, size, blockSize) > 0
    ensures cursor + size <= blockSize ==> AppendCursor(cursor, size, blockSize) == cursor + size
  {
    if cursor + size > blockSize {
      var n := cursor + size - 1;
      var q := n / blockSize;
      assert n == blockSize * q + n % blockSize;
      assert AppendCursor(cursor, size, blockSize) == n % blockSize + 1;
    }
  }

  /**
   * Segmentation does not depend on how the bytes are split between calls:
   * appending `n` and then `m` bytes flushes as many blocks, and leaves the
   * cursor at the same offset, as appending all `n + m` bytes at once.
   */
  lemma AppendFlushesSplit(cursor: nat, n: nat, m: nat, blockSize: nat)
    requires blockSize > 0 && cursor <= blockSize
    ensures AppendFlushes(cursor, n + m, blockSize)
         == AppendFlushes(cursor, n, blockSize) + AppendFlushes(AppendCursor(cursor, n, blockSize), m, blockSize)
    ensures AppendCursor(cursor, n + m, blockSize)
         == AppendCursor(AppendCursor(cursor, n, blockSize), m, blockSize)
  {
    AppendCursorBounds(cursor, n, blockSize);
    var f := AppendFlushes(cursor, n, blockSize);
    var c: nat := AppendCursor(cursor, n, blockSize);
    if c + m <= blockSize {
      SplitWithoutSecondFlush(cursor, n, m, blockSize, f, c);
    } else {
      SplitWithSecondFlush(cursor, n, m, blockSize, f, c);
    }
  }

  /** AppendFlushesSplit when the second part fits in the block the first part left behind. */
  lemma SplitWithoutSecondFlush(cursor: nat, n: nat, m: nat, blockSize: nat, f: nat, c: nat)
    requires blockSize > 0 && cursor + n == c + blockSize * f && c + m <= blockSize
    requires f > 0 ==> c > 0
    requires f == 0 ==> cursor + n <= blockSize
    ensures AppendFlushes(cursor, n + m, blockSize) == f
  {
    if cursor + n + m > blockSize {
      assert f > 0;
      DivRange(cursor + n + m - 1, f, blockSize);
    }
  }

  /** AppendFlushesSplit when the second part overruns the block the first part left behind. */
  lemma SplitWithSecondFlush(cursor: nat, n: nat, m: nat, blockSize: nat, f: nat, c: nat)
    requires blockSize > 0 && cursor + n == c + blockSize * f && c + m > blockSize
    ensures AppendFlushes(cursor, n + m, blockSize) == f + AppendFlushes(c, m, blockSize)
    ensures cursor + n + m - blockSize * AppendFlushes(cursor, n + m, blockSize)
         == c + m - blockSize * AppendFlushes(c, m, blockSize)
  {
    var g := (c + m - 1) / blockSize;
    assert cursor + n + m - 1 == (c + m - 1) + blockSize * f;
    DivAddMultiple(c + m - 1, f, blockSize);
    assert blockSize * (f + g) == blockSize * f + blockSize * g;
  }

  /** Adding a multiple of the divisor adds to the quotient. */
  lemma DivAddMultiple(x: nat, k: nat, d: nat)
    requires d > 0
    ensures (x + d * k) / d == x / d + k
  {
    var q := x / d;
    assert x == d * q + x % d;
    assert x + d * k == d * (q + k) + x % d by {
      assert d * (q + k) == d * q + d * k;
    }
    DivUnique(x + d * k, d, q + k, x % d);
  }

  /**
   * The number of blocks the append loop flushes, turn by turn: while the
   * bytes overrun the block, one block is filled and flushed and the rest
   * continues at offset 0.
   */
  function Turns(cursor: nat, size: nat, blockSize: nat): nat
    requires blockSize > 0 && cursor <= blockSize
    decreases cursor + size
  {
    if cursor + size <= blockSize then 0
    else 1 + Turns(0, size - (blockSize - cursor), blockSize)
  }

  /** Cursor offset the append loop stops at, turn by turn. */
  function TurnsCursor(cursor: nat, size: nat, blockSize: nat): nat
    requires blockSize > 0 && cursor <= blockSize
    decreases cursor + size
  {
    if cursor + size <= blockSize then cursor + size
    else TurnsCursor(0, size - (blockSize - cursor), blockSize)
  }

  /** The turn-by-turn count and cursor agree with the closed forms. */
  lemma {:induction false} TurnsClosedForm(cursor: nat, size: nat, blockSize: nat)
    requires blockSize > 0 && cursor <= blockSize
    ensures Turns(cursor, size, blockSize) == AppendFlushes(cursor, size, blockSize)
    ensures TurnsCursor(cursor, size, blockSize) == AppendCursor(cursor, size, blockSize)
    decreases cursor + size
  {
    if cursor + size > blockSize {
      AppendFlushesStep(cursor, size, blockSize);
      TurnsClosedForm(0, size - (blockSize - cursor), blockSize);
    }
  }

  /** Euclidean division has a unique quotient. */
  lemma DivUnique(n: nat, d: nat, q: int, r: int)
    requires d > 0 && 0 <= r < d && n == d * q + r
    ensures n / d == q
  {
    var q0, r0 := n / d, n % d;
    assert n == d * q0 + r0;
    var k := q - q0;
    assert d * k == r0 - r by {
      assert d * q - d * q0 == d * (q - q0);
    }
  }

  lemma DivRange(n: nat, q: nat, d: nat)
    requires d > 0 && d * q <= n < d * (q + 1)
    ensures n / d == q
  {
    assert d * (q + 1) == d * q + d;
    DivUnique(n, d, q, n - d * q);
  }

  lemma DivShift(n: nat, d: nat)
    requires d > 0
    ensures (n + d) / d == n / d + 1
  {
    var q := n / d;
    assert n == d * q + n % d;
    assert n + d == d * (q + 1) + n % d;
    DivUnique(n + d, d, q + 1, n % d);
  }

  /** A sequence that extends `d0 + e` by one element is `d0` followed by `e` and that element. */
  lemma SnocStep<T>(d0: seq<T>, e: seq<T>, before: seq<T>, after: seq<T>)
    requires before == d0 + e && |after| == |before| + 1 && after[..|before|] == before
    ensures after == d0 + (e + [after[|before|]])
  {
    assert after == after[..|before|] + [after[|before|]];
  }

  /**
   * What the append loop has achieved after delivering `emitted`: `pos` bytes
   * of `data` are out, counted turn by turn against the start (`cursor0`,
   * `pending0`, `delivered0`, `first0`, `count0`); the deliveries extend the
   * sink's history, form a run of full blocks, and together with the bytes
   * now `pending` carry exactly the old pending bytes and `data[..pos]`.
   */
  ghost predicate AppendProgress(blockSize: nat, data: seq<byte>, cursor0: nat, delivered0: seq<Delivery>,
                                 pending0: seq<byte>, first0: nat, count0: nat,
                                 pos: nat, emitted: seq<Delivery>, cursor: nat,
                                 delivered: seq<Delivery>, pending: seq<byte>)
  {
    blockSize > 0 && cursor0 <= blockSize && cursor <= blockSize && pos <= |data| &&
    Turns(cursor0, |data|, blockSize) == |emitted| + Turns(cursor, |data| - pos, blockSize) &&
    TurnsCursor(cursor0, |data|, blockSize) == TurnsCursor(cursor, |data| - pos, blockSize) &&
    delivered == delivered0 + emitted &&
    FullSegment(emitted, blockSize, first0, count0) &&
    Payload(emitted) + pending == pending0 + data[..pos]
  }

  /** One turn of the append loop: the pending bytes and the next chunk go out as one full block. */
  lemma AppendProgressStep(blockSize: nat, data: seq<byte>, cursor0: nat, delivered0: seq<Delivery>,
                           pending0: seq<byte>, first0: nat, count0: nat,
                           pos: nat, emitted: seq<Delivery>, cursor: nat,
                           delivered: seq<Delivery>, pending: seq<byte>,
                           delivered': seq<Delivery>)
    requires AppendProgress(blockSize, data, cursor0, delivered0, pending0, first0, count0,
                            pos, emitted, cursor, delivered, pending)
    requires cursor + (|data| - pos) > blockSize
    requires |delivered'| == |delivered| + 1 && delivered'[..|delivered|] == delivered
    requires delivered'[|delivered|].Emitted?
    requires delivered'[|delivered|].offset == 0 && delivered'[|delivered|].length == blockSize
    requires emitted == [] ==> delivered'[|delivered|].firstItemOffset == first0 &&
                               delivered'[|delivered|].itemCount == count0
    requires emitted != [] ==> delivered'[|delivered|].firstItemOffset == 0 &&
                               delivered'[|delivered|].itemCount == 0
    requires Range(delivered'[|delivered|]) == pending + data[pos..pos + (blockSize - cursor)]
    ensures AppendProgress(blockSize, data, cursor0, delivered0, pending0, first0, count0,
                           pos + (blockSize - cursor), emitted + [delivered'[|delivered|]], 0,
                           delivered', [])
  {
    var d := delivered'[|delivered|];
    var pos' := pos + (blockSize - cursor);
    assert Turns(cursor, |data| - pos, blockSize) == 1 + Turns(0, |data| - pos', blockSize);
    assert TurnsCursor(cursor, |data| - pos, blockSize) == TurnsCursor(0, |data| - pos', blockSize);
    SnocStep(delivered0, emitted, delivered, delivered');
    FullSegmentSnoc(emitted, d, blockSize, first0, count0);
    PayloadChunk(emitted, d, pending, data, pos, pos', pending0);
  }

  lemma PayloadChunk(e: seq<Delivery>, d: Delivery, pending: seq<byte>, data: seq<byte>,
                     pos: nat, pos': nat, start: seq<byte>)
    requires pos <= pos' <= |data|
    requires Payload(e) + pending == start + data[..pos]
    requires Range(d) == pending + data[pos..pos']
    ensures Payload(e + [d]) + [] == start + data[..pos']
  {
    PayloadSnoc(e, d);
    AppendBoth(Payload(e), pending, data[pos..pos'], start + data[..pos]);
    assert data[..pos'] == data[..pos] + data[pos..pos'];
    assert Payload(e + [d]) + [] == Payload(e + [d]);
  }

  /**
   * When the append loop stops, the rest of `data` fits the current block;
   * copying it there completes the append: the number of blocks delivered and
   * the final cursor are the closed forms, and the stream plus the pending
   * bytes carry the old pending bytes followed by all of `data`.
   */
  lemma AppendProgressDone(blockSize: nat, data: seq<byte>, cursor0: nat, delivered0: seq<Delivery>,
                           pending0: seq<byte>, first0: nat, count0: nat,
                           pos: nat, emitted: seq<Delivery>, cursor: nat,
                           delivered: seq<Delivery>, pending: seq<byte>, pending': seq<byte>)
    requires AppendProgress(blockSize, data, cursor0, delivered0, pending0, first0, count0,
                            pos, emitted, cursor, delivered, pending)
    requires cursor + (|data| - pos) <= blockSize
    requires pending' == pending + data[pos..]
    ensures |emitted| == AppendFlushes(cursor0, |data|, blockSize)
    ensures cursor + (|data| - pos) == AppendCursor(cursor0, |data|, blockSize)
    ensures Payload(emitted) + pending' == pending0 + data
  {
    TurnsClosedForm(cursor0, |data|, blockSize);
    AppendBoth(Payload(emitted), pending, data[pos..], pending0 + data[..pos]);
    assert data[..pos] + data[pos..] == data;
  }

  /**
   * Two writing operations in a row: when each one's new deliveries plus the
   * pending bytes after it carry the pending bytes before it followed by its
   * input, the same holds for both together with the inputs concatenated.
   */
  lemma StreamCompose(d0: seq<Delivery>, d1: seq<Delivery>, d2: seq<Delivery>,
                      p0: seq<byte>, p1: seq<byte>, p2: seq<byte>, x: seq<byte>, y: seq<byte>)
    requires |d0| <= |d1| <= |d2| && d1[..|d0|] == d0 && d2[..|d1|] == d1
    requires Payload(d1[|d0|..]) + p1 == p0 + x
    requires Payload(d2[|d1|..]) + p2 == p1 + y
    ensures d2[..|d0|] == d0
    ensures Payload(d2[|d0|..]) + p2 == p0 + (x + y)
  {
    var a, b := d1[|d0|..], d2[|d1|..];
    assert d2[..|d0|] == d1[..|d0|];
    assert d2[|d0|..] == a + b by {
      assert d2 == d1 + b;
    }
    PayloadConcat(a, b);
    AppendBoth(Payload(a), Payload(b), p2, Payload(a + b));
    AppendBoth(Payload(a), p1, y, p0 + x);
  }

  // ---------------------------------------------------------------------
  // Strings as bytes
  // ---------------------------------------------------------------------

  /** A string whose every character is a single byte, as in a std::string. */
  predicate IsByteString(s: string)
  {
    forall i | 0 <= i < |s| :: s[i] as int < 256
  }

  /** The bytes of such a string, in order, without a terminator. */
  function StringBytes(s: string): (r: seq<byte>)
    requires IsByteString(s)
    ensures |r| == |s|
  {
    seq(|s|, i requires 0 <= i < |s| && IsByteString(s) => s[i] as int as byte)
  }

  /** The string those bytes spell. */
  function BytesString(b: seq<byte>): (s: string)
    ensures |s| == |b| && IsByteString(s)
  {
    seq(|b|, i requires 0 <= i < |b| => b[i] as int as char)
  }

  /** The bytes a string is appended as spell the string again, and bytes survive the trip through a string. */
  lemma StringBytesRoundTrip(s: string, b: seq<byte>)
    requires IsByteString(s)
    ensures BytesString(StringBytes(s)) == s
    ensures StringBytes(BytesString(b)) == b
  {
    var r := BytesString(StringBytes(s));
    assert forall i | 0 <= i < |s| :: r[i] == s[i];
    var t := StringBytes(BytesString(b));
    assert forall i | 0 <= i < |b| :: t[i] == b[i];
  }

  // ---------------------------------------------------------------------
  // The effect of one append, as a relation between writer states
  // ---------------------------------------------------------------------

  /**
   * Appending `data` takes a writer at `cursor` (with `pending` bytes in its
   * block, item metadata `first`/`count`, after the deliveries `delivered`)
   * to the primed state: the closed-form number of full blocks is handed
   * over, the cursor ends at its closed form, the new deliveries and the
   * bytes now pending carry the old pending bytes followed by `data`, every
   * block handed over is full, and the item metadata travel with the first of
   * them (the later ones, and a fresh block, carry none).
   */
  ghost predicate Appended(blockSize: nat, data: seq<byte>,
                           cursor: nat, delivered: seq<Delivery>, pending: seq<byte>, first: nat, count: nat,
                           cursor': nat, delivered': seq<Delivery>, pending': seq<byte>, first': nat, count': nat)
  {
    blockSize > 0 && cursor <= blockSize &&
    cursor' == AppendCursor(cursor, |data|, blockSize) &&
    |delivered'| == |delivered| + AppendFlushes(cursor, |data|, blockSize) &&
    delivered'[..|delivered|] == delivered &&
    Payload(delivered'[|delivered|..]) + pending' == pending + data &&
    FullSegment(delivered'[|delivered|..], blockSize, first, count) &&
    (|delivered'| == |delivered| ==> first' == first && count' == count) &&
    (|delivered'| > |delivered| ==>
       delivered'[|delivered|].Emitted? && delivered'[|delivered|].firstItemOffset == first &&
       delivered'[|delivered|].itemCount == count && first' == 0 && count' == 0)
  }

  /** Appending nothing changes nothing. */
  lemma AppendedNothing(blockSize: nat, cursor: nat, delivered: seq<Delivery>, pending: seq<byte>,
                        first: nat, count: nat)
    requires blockSize > 0 && cursor <= blockSize
    ensures Appended(blockSize, [], cursor, delivered, pending, first, count,
                     cursor, delivered, pending, first, count)
  {
    assert delivered[|delivered|..] == [];
  }

  /**
   * Two appends in a row have the effect of one append of the concatenated
   * bytes: how a caller splits its bytes between Append calls changes
   * neither the blocks handed over nor the final state.
   */
  lemma AppendedTwice(blockSize: nat, x: seq<byte>, y: seq<byte>,
                      c0: nat, d0: seq<Delivery>, p0: seq<byte>, f0: nat, k0: nat,
                      c1: nat, d1: seq<Delivery>, p1: seq<byte>, f1: nat, k1: nat,
                      c2: nat, d2: seq<Delivery>, p2: seq<byte>, f2: nat, k2: nat)
    requires Appended(blockSize, x, c0, d0, p0, f0, k0, c1, d1, p1, f1, k1)
    requires Appended(blockSize, y, c1, d1, p1, f1, k1, c2, d2, p2, f2, k2)
    ensures Appended(blockSize, x + y, c0, d0, p0, f0, k0, c2, d2, p2, f2, k2)
  {
    AppendFlushesSplit(c0, |x|, |y|, blockSize);
    StreamCompose(d0, d1, d2, p0, p1, p2, x, y);
    SegmentCompose(d0, d1, d2, blockSize, f0, k0, f1, k1);
    if |d1| > |d0| {
      assert d2[|d0|] == d1[|d0|];
    }
  }

  // ---------------------------------------------------------------------
  // Where an item is recorded
  // ---------------------------------------------------------------------

  /**
   * Where an item marked with the writer at cursor `c`, holding `n` items
   * whose first is at `f`, after `d` deliveries, is recorded: it starts in
   * the current block at `c`, or at 0 in a fresh block when the current one
   * was full. That block, whether delivered since (in `delivered`) or still
   * current (with metadata `nitems`/`firstOffset`), counts the item, and
   * reports `c` (resp. 0) as its first-item offset when the item is its first.
   * The blocks delivered from that block on are full, and those after it
   * carry no items.
   */
  ghost predicate ItemLands(blockSize: nat, c: nat, n: nat, f: nat, d: nat,
                            delivered: seq<Delivery>, nitems: nat, firstOffset: nat)
  {
    var j := if c == blockSize then d + 1 else d;
    var start := if c == blockSize then 0 else c;
    var before := if c == blockSize then 0 else n;
    var first := if before == 0 then start else f;
    j <= |delivered| &&
    FullSegment(delivered[j..], blockSize, first, before + 1) &&
    (j < |delivered| ==>
       delivered[j].Emitted? && delivered[j].itemCount == before + 1 &&
       delivered[j].firstItemOffset == first) &&
    (j == |delivered| ==> nitems == before + 1 && firstOffset == first)
  }

  /**
   * An item is marked (state 0 to state 1: a full block is handed over first,
   * then the item is counted) and its bytes are appended (state 1 to state
   * 2). Then the block the item starts in records it, the cursor and the
   * number of blocks are those of an append from the marked state, and the
   * stream carries the old pending bytes followed by the item's bytes.
   */
  lemma ItemRecorded(blockSize: nat, bytes: seq<byte>,
                     c0: nat, d0: seq<Delivery>, p0: seq<byte>, f0: nat, k0: nat,
                     c1: nat, d1: seq<Delivery>, p1: seq<byte>, f1: nat, k1: nat,
                     c2: nat, d2: seq<Delivery>, p2: seq<byte>, f2: nat, k2: nat)
    requires c0 <= blockSize
    requires c0 == blockSize ==>
      |d1| == |d0| + 1 && d1[..|d0|] == d0 && Range(d1[|d0|]) == p0 &&
      c1 == 0 && p1 == [] && k1 == 1 && f1 == 0
    requires c0 < blockSize ==>
      d1 == d0 && c1 == c0 && p1 == p0 && k1 == k0 + 1 && f1 == (if k0 == 0 then c0 else f0)
    requires Appended(blockSize, bytes, c1, d1, p1, f1, k1, c2, d2, p2, f2, k2)
    ensures |d0| <= |d2| && d2[..|d0|] == d0
    ensures c2 == AppendCursor(if c0 == blockSize then 0 else c0, |bytes|, blockSize)
    ensures |d2| == |d0| + (if c0 == blockSize then 1 else 0) +
      AppendFlushes(if c0 == blockSize then 0 else c0, |bytes|, blockSize)
    ensures Payload(d2[|d0|..]) + p2 == p0 + bytes
    ensures ItemLands(blockSize, c0, k0, f0, |d0|, d2, k2, f2)
  {
    if c0 == blockSize {
      assert d1[|d0|..] == [d1[|d0|]];
      PayloadOne(d1[|d0|]);
      StreamCompose(d0, d1, d2, p0, p1, p2, [], bytes);
    } else {
      assert d2[|d0|..] == d2[|d1|..];
    }
  }
}

=== FILE: scenarios.dfy ===
/*
 * Whole writing sessions against a recording sink: a writer is attached to
 * a fresh sink, used, and closed, and the contracts state what the sink
 * ends up holding.
 */
module Scenarios {
  import opened Blocks
  import opened Sink
  import opened Writer

  /** The chunks, concatenated in order. */
  function Concat(chunks: seq<seq<byte>>): seq<byte>
  {
    if chunks == [] then [] else Concat(chunks[..|chunks| - 1]) + chunks[|chunks| - 1]
  }

  /** One more chunk extends the concatenation of the chunks before it. */
  lemma ConcatSnoc(chunks: seq<seq<byte>>, i: nat)
    requires i < |chunks|
    ensures Concat(chunks[..i + 1]) == Concat(chunks[..i]) + chunks[i]
  {
    assert chunks[..i + 1][..i] == chunks[..i];
  }

  /**
   * The whole stream so far, the delivered valid ranges followed by the
   * bytes pending in the current block, grows by exactly the bytes an
   * operation was given.
   */
  lemma StreamGrows(before: seq<Delivery>, after: seq<Delivery>, pending: seq<byte>, pending': seq<byte>,
                    sofar: seq<byte>, chunk: seq<byte>)
    requires |before| <= |after| && after[..|before|] == before
    requires Payload(before) + pending == sofar
    requires Payload(after[|before|..]) + pending' == pending + chunk
    ensures Payload(after) + pending' == sofar + chunk
  {
    assert before[0..] == before && after[0..] == after && after[..0] == [];
    assert [] + sofar == sofar;
    StreamCompose([], before, after, [], pending, pending', sofar, chunk);
  }

  /** One Append in a session: the whole stream grows by the chunk. */
  method SessionAppend(w: BlockWriter, ghost sofar: seq<byte>, chunk: seq<byte>)
    requires w.Valid() && !w.closed && w.sink != null
    requires Payload(w.delivered) + w.Prefix() == sofar
    modifies w, w.block, w.sink
    ensures w.Valid() && !w.closed && w.marked == old(w.marked)
    ensures w.block == old(w.block) || fresh(w.block)
    ensures Payload(w.delivered) + w.Prefix() == sofar + chunk
  {
    ghost var d0, p0 := w.delivered, w.Prefix();
    w.Append(chunk);
    StreamGrows(d0, w.delivered, p0, w.Prefix(), sofar, chunk);
  }

  /** One item in a session: the whole stream grows by the item's bytes and one more item is marked. */
  method SessionItem(w: BlockWriter, ghost sofar: seq<byte>, serialized: seq<byte>, selfVerify: bool, typeHash: nat)
    requires w.Valid() && !w.closed && w.sink != null && typeHash < Pow256(8)
    requires Payload(w.delivered) + w.Prefix() == sofar
    modifies w, w.block, w.sink
    ensures w.Valid() && !w.closed && w.marked == old(w.marked) + 1
    ensures w.block == old(w.block) || fresh(w.block)
    ensures Payload(w.delivered) + w.Prefix() == sofar + ItemBytes(serialized, selfVerify, typeHash)
  {
    ghost var d0, p0 := w.delivered, w.Prefix();
    w.AppendItem(serialized, selfVerify, typeHash);
    StreamGrows(d0, w.delivered, p0, w.Prefix(), sofar, ItemBytes(serialized, selfVerify, typeHash));
  }

  /** The end of a session: the sink holds the whole stream, every marked item, and one end-of-stream signal. */
  method SessionClose(w: BlockWriter, ghost sofar: seq<byte>)
    requires w.Valid() && !w.closed && w.sink != null && w.prior == [] && w.closesAtStart == 0
    requires Payload(w.delivered) + w.Prefix() == sofar
    modifies w, w.sink
    ensures Payload(w.sink.log) == sofar
    ensures AllWellFormed(w.sink.log, w.blockSize) && OwnItems(w.sink.log) == w.marked
    ensures w.sink.closeCount == 1 && w.marked == old(w.marked) && w.Valid() && w.closed
  {
    ghost var d0, p0 := w.delivered, w.Prefix();
    w.Close();
    assert Payload(w.delivered[|d0|..]) + [] == p0 + [];
    StreamGrows(d0, w.delivered, p0, [], sofar, []);
    assert Payload(w.delivered) + [] == Payload(w.delivered) && sofar + [] == sofar;
    assert w.sink.log == w.delivered;
  }

  /**
   * Writes every chunk with Append and closes the writer. Whatever the block
   * size and however the bytes are split into chunks, the sink receives
   * well-formed blocks whose valid ranges, in order, are all the bytes
   * written, and the end-of-stream signal exactly once.
   */
  method WriteAll(chunks: seq<seq<byte>>, blockSize: nat) returns (log: seq<Delivery>, closes: nat)
    requires blockSize > 0
    ensures Payload(log) == Concat(chunks)
    ensures AllWellFormed(log, blockSize) && OwnItems(log) == 0
    ensures closes == 1
  {
    var sink := new BlockSink();
    var w := new BlockWriter(sink, blockSize);
    for i := 0 to |chunks|
      invariant w.Valid() && !w.closed && w.sink == sink && w.prior == [] && w.closesAtStart == 0
      invariant fresh(w.block) && w.marked == 0
      invariant Payload(w.delivered) + w.Prefix() == Concat(chunks[..i])
    {
      SessionAppend(w, Concat(chunks[..i]), chunks[i]);
      ConcatSnoc(chunks, i);
    }
    assert chunks[..|chunks|] == chunks;
    SessionClose(w, Concat(chunks));
    log, closes := sink.log, sink.closeCount;
  }

  /**
   * Writes every item with the item operator and closes the writer. The
   * sink's blocks carry the items' bytes in order, and their item counts add
   * up to the number of items: every item is counted exactly once.
   */
  method WriteItems(items: seq<seq<byte>>, blockSize: nat) returns (log: seq<Delivery>, closes: nat)
    requires blockSize > 0
    ensures Payload(log) == Concat(items)
    ensures AllWellFormed(log, blockSize) && OwnItems(log) == |items|
    ensures closes == 1
  {
    var sink := new BlockSink();
    var w := new BlockWriter(sink, blockSize);
    for i := 0 to |items|
      invariant w.Valid() && !w.closed && w.sink == sink && w.prior == [] && w.closesAtStart == 0
      invariant fresh(w.block) && w.marked == i
      invariant Payload(w.delivered) + w.Prefix() == Concat(items[..i])
    {
      SessionItem(w, Concat(items[..i]), items[i], false, 0);
      assert ItemBytes(items[i], false, 0) == items[i];
      ConcatSnoc(items, i);
    }
    assert items[..|items|] == items;
    SessionClose(w, Concat(items));
    log, closes := sink.log, sink.closeCount;
  }

  /**
   * A writer without a sink reports itself as not valid, and still takes
   * bytes as long as they fit in its block.
   */
  method DetachedWriter(data: seq<byte>, blockSize: nat) returns (valid: bool, pending: seq<byte>)
    requires 0 < blockSize && |data| <= blockSize
    ensures !valid && pending == data
  {
    var w := new BlockWriter(null, blockSize);
    valid := w.IsValid();
    w.Append(data);
    assert w.delivered == [] && w.delivered[0..] == [];
    assert Payload([]) + w.Prefix() == w.Prefix();
    pending := w.block[..w.cursor];
  }

  /**
   * One self-verified item: a reader of the sink's stream finds the type
   * hash in the first 8 bytes and the serialized item right after them.
   */
  method SelfVerifiedItem(serialized: seq<byte>, typeHash: nat, blockSize: nat) returns (log: seq<Delivery>)
    requires blockSize > 0 && typeHash < Pow256(8)
    ensures |Payload(log)| == 8 + |serialized|
    ensures FromLittleEndian(Payload(log)[..8]) == typeHash
    ensures Payload(log)[8..] == serialized
    ensures OwnItems(log) == 1
  {
    var sink := new BlockSink();
    var w := new BlockWriter(sink, blockSize);
    assert Payload(w.delivered) + w.Prefix() == [];
    SessionItem(w, [], serialized, true, typeHash);
    SessionClose(w, ItemBytes(serialized, true, typeHash));
    log := sink.log;
  }

  /**
   * An item exactly one block long, written when the block is empty or full:
   * a full block is handed over first, and the item then fills the current
   * block, as its only item, at offset 0, without a flush.
   */
  method FullBlockItem(w: BlockWriter, serialized: seq<byte>)
    requires w.Valid() && !w.closed && w.sink != null && |serialized| == w.blockSize
    requires (w.cursor == 0 && w.nitems == 0) || w.cursor == w.blockSize
    modifies w, w.block, w.sink
    ensures w.Valid() && !w.closed && w.marked == old(w.marked) + 1
    ensures w.cursor == w.blockSize && w.nitems == 1 && w.firstOffset == 0
    ensures w.block == old(w.block) || fresh(w.block)
    ensures w.delivered == old(w.delivered) +
      (if old(w.cursor) == w.blockSize
       then [Emitted(old(w.block), old(w.block[..]), 0, w.blockSize, old(w.firstOffset), old(w.nitems))]
       else [])
  {
    w.AppendItem(serialized, false, 0);
    if old(w.cursor) == w.blockSize {
      assert w.delivered == old(w.delivered) + [w.delivered[|old(w.delivered)|]];
    }
  }

  /**
   * With a block size of 4, two items of 4 bytes each followed by Close hand
   * over two full blocks, each holding one item that starts at offset 0.
   */
  method TwoFullItems() returns (log: seq<Delivery>, closes: nat)
    ensures |log| == 2 && closes == 1
    ensures forall i | 0 <= i < 2 ::
      log[i].Emitted? && log[i].offset == 0 && log[i].length == 4 &&
      log[i].firstItemOffset == 0 && log[i].itemCount == 1
  {
    var sink := new BlockSink();
    var w := new BlockWriter(sink, 4);
    FullBlockItem(w, [1, 2, 3, 4]);
    FullBlockItem(w, [5, 6, 7, 8]);
    w.Close();
    log, closes := sink.log, sink.closeCount;
  }

  /** Bytes that exactly fill the rest of the current block stay in it: nothing is handed over. */
  method FillExactly(w: BlockWriter, data: seq<byte>)
    requires w.Valid() && !w.closed && w.cursor + |data| == w.blockSize
    modifies w, w.block, w.sink
    ensures w.Valid() && !w.closed && w.block == old(w.block)
    ensures w.delivered == old(w.delivered) && w.cursor == w.blockSize
    ensures w.Prefix() == old(w.Prefix()) + data
  {
    ghost var d0 := w.delivered;
    w.Append(data);
    assert w.delivered == w.delivered[..|d0|];
    assert w.delivered[|d0|..] == [];
    assert Payload([]) + w.Prefix() == w.Prefix();
  }

  /**
   * Four bytes into an empty block of size 4 fill it without a flush; the
   * next byte first hands over the full block.
   */
  method ExactFill() returns (afterFill: seq<Delivery>, afterByte: seq<Delivery>)
    ensures afterFill == []
    ensures |afterByte| == 1 && afterByte[0].Emitted? && afterByte[0].length == 4
    ensures Range(afterByte[0]) == [1, 2, 3, 4]
  {
    var sink := new BlockSink();
    var w := new BlockWriter(sink, 4);
    FillExactly(w, [1, 2, 3, 4]);
    afterFill := sink.log;
    w.PutByte(5);
    afterByte := sink.log;
  }

  /**
   * A block handed over by Flush is never written again: the bytes appended
   * afterwards go into a fresh block, and the delivered block keeps the
   * contents it was delivered with.
   */
  method FlushThenAppend(w: BlockWriter, data: seq<byte>) returns (b: array<byte>)
    requires w.Valid() && !w.closed && w.sink != null
    modifies w, w.block, w.sink
    ensures w.Valid() && !w.closed
    ensures b == old(w.block) && |w.delivered| > |old(w.delivered)|
    ensures w.delivered[|old(w.delivered)|] ==
      Emitted(b, b[..], 0, old(w.cursor), old(w.firstOffset), old(w.nitems))
    ensures b[..] == old(b[..])
  {
    b := w.block;
    w.Flush();
    ghost var d1 := w.delivered;
    w.Append(data);
    assert w.delivered[..|d1|] == d1;
  }

  /**
   * Close acts once: a second Close and the destructor afterwards hand over
   * nothing more and do not close the sink again.
   */
  method CloseTwice(data: seq<byte>, blockSize: nat) returns (first: seq<Delivery>, last: seq<Delivery>, closes: nat)
    requires blockSize > 0
    ensures last == first && closes == 1
    ensures Payload(first) == data
  {
    var sink := new BlockSink();
    var w := new BlockWriter(sink, blockSize);
    SessionAppend(w, [], data);
    SessionClose(w, data);
    first := sink.log;
    w.Close();
    w.Destroy();
    last, closes := sink.log, sink.closeCount;
  }

  /** A writer closed before anything was written hands over no block and closes the sink once. */
  method EmptySession() returns (log: seq<Delivery>, closes: nat)
    ensures log == [] && closes == 1
  {
    var sink := new BlockSink();
    var w := new BlockWriter(sink, 4);
    w.Close();
    log, closes := sink.log, sink.closeCount;
  }

  /**
   * Flush hands over the current block even when it is empty; Close then
   * has nothing left to deliver.
   */
  method FlushEmptyBlock() returns (log: seq<Delivery>, closes: nat)
    ensures |log| == 1 && log[0].Emitted? && log[0].length == 0 && log[0].itemCount == 0
    ensures Range(log[0]) == []
    ensures closes == 1
  {
    var sink := new BlockSink();
    var w := new BlockWriter(sink, 4);
    w.Flush();
    w.Close();
    log, closes := sink.log, sink.closeCount;
  }

  /** Destroying a writer hands over its partial block and closes the sink. */
  method DestroyDelivers() returns (log: seq<Delivery>, closes: nat)
    ensures |log| == 1 && log[0].Emitted? && log[0].length == 2 && closes == 1
    ensures Range(log[0]) == [7, 8]
  {
    var sink := new BlockSink();
    var w := new BlockWriter(sink, 4);
    ghost var p0 := w.Prefix();
    assert p0 == [];
    w.Append([7, 8]);
    assert AppendFlushes(0, 2, 4) == 0;
    assert Payload([]) + w.Prefix() == w.Prefix();
    w.Destroy();
    PayloadOne(sink.log[0]);
    log, closes := sink.log, sink.closeCount;
  }
}
